=== FILE: README.md ===
# Mixed-work benchmark: result bookkeeping, task accounting and integer helpers

This project is a Dafny model of the logic inside a Java benchmark. The benchmark
compares a blocking thread-pool scenario with a reactive scenario. Each scenario
runs 12 tasks. Every task makes two remote calls of 2000 ms around a CPU step.
Most of the benchmark is network calls, thread pools, timing and printing. The
model covers the parts that are logic:

- **Result bookkeeping and report gating** (`ScenarioResults`). The static map holds
  one result per scenario name; a later write for the same name replaces the earlier
  one. `recordResult` prints a comparison table whenever both the "Blocking" and
  "Reactive" results are present. `printBenchmarkSummary` prints the final comparison
  only when both are present and the static `finalSummaryPrinted` flag is clear, and
  it sets the flag first. Runs of these calls are proved to print the guarded
  comparison at most once. They print the unguarded table again on every later record.
- **Task accounting** (`TaskAccounting`). The shared counters `activeOperations` and
  `completedTasks`, and the blocking scenario's countdown latch, are modelled as a
  state record. Each atomic step of a task is one event. Any interleaving is a sequence
  of such events. An invariant ties the counters and the latch to the phases of the
  tasks. It yields `active ≥ 0`, the latch reaching 0 exactly when every task has run
  its `finally`, and `completed == 12` exactly when no task failed.
- **Task identifiers** (`TaskIds`). An identifier is `Block-` or `React-` followed by
  `%02d` of the index. A parser is proved to invert it, so identifiers are pairwise
  distinct. For 12 tasks each has exactly two digits.
- **Derived metrics** (`Reporting`). These are the average per task, the ratio and
  overhead against the 4000 ms theoretical minimum, and the overall improvement. They
  are exact reals. A `double` division by zero is modelled as the infinity or NaN Java
  produces. Every percentage the two tables print for a pair of non-negative durations
  is proved to be the same figure.
- **Integer helpers** (`DownloadBenchmark`, `JavaArith`). `doCpuWork(n)` is a loop with a `long`
  accumulator and an `int` counter; Java's wrap-around is written out. It returns the
  sum of squares wrapped to 64 bits. The result is exact if and only if n ≤ 3024616,
  which covers the call sites' 500000. `toMB` uses Java's truncating division, so
  `toMB(-1) == 0`.

Durations are inputs: the wall clock is not modelled. Remote calls and CPU work are
abstracted into the events `Begin`, `Throw`, `Release`, `Complete` and `CountDown` of a task.

Two behaviours of the code are easy to misread:

- Only the final comparison in `printBenchmarkSummary` is guarded by the flag. The
  table that `recordResult` prints is not, so it is printed again on every later
  record (`TableReprintedOnEveryRecord`).
- The recorded count is the `completedTasks` counter. It counts only successful
  tasks since the last `setup` (`RecordedCountNeedsSetup`), so it is below 12
  whenever a task failed. Both tables nevertheless print the constant 12 in their
  "Tasks Completed" row (see "## Findings").

## Model

| member | source | states |
|---|---|---|
| JavaArith.WrapInt | src/main/java/com/example/benchmark/DownloadBenchmark.java:90 | the `int` counter after `i++` is always an `int`, and equals the exact value whenever that is in range |
| JavaArith.WrapLong | src/main/java/com/example/benchmark/DownloadBenchmark.java:91 | the accumulator after `sum +=` is always a `long`, and equals the exact value whenever that is in range |
| JavaArith.WrapLongCongruence | src/main/java/com/example/benchmark/DownloadBenchmark.java:91 | the wrapped `long` differs from the exact value by a multiple of 2^64 |
| JavaArith.TruncDiv | src/main/java/com/example/benchmark/DownloadBenchmark.java:107-109 | Java `/` on a positive divisor truncates toward zero: the remainder has the dividend's sign and is smaller than the divisor |
| JavaArith.LongSub | src/main/java/com/example/benchmark/MixedWorkBenchmark.java:411 | `long` subtraction wraps to 64 bits; it is exact for two non-negative durations, and wraps by 2^64 when a negative minus a positive leaves the range |
| JavaArith.WrapLongAdd | src/main/java/com/example/benchmark/DownloadBenchmark.java:91 | adding into a wrapped `long` accumulator gives the same value as wrapping the exact total once |
| JavaArith.IntIncrementWraps | src/main/java/com/example/benchmark/DownloadBenchmark.java:90 | `Integer.MAX_VALUE + 1` wraps to `Integer.MIN_VALUE` |
| DownloadBenchmark.DoCpuWork | src/main/java/com/example/benchmark/DownloadBenchmark.java:88-94 | for every `int` n below `Integer.MAX_VALUE` the loop ends with the sum of squares 1..n wrapped to 64 bits; it returns 0 for n ≤ 0; the result is exact if and only if n ≤ 3024616 |
| DownloadBenchmark.SumOfSquaresClosedForm | src/main/java/com/example/benchmark/DownloadBenchmark.java:88-94 | 6 · Σ i² = n(n+1)(2n+1) |
| DownloadBenchmark.SumOfSquaresStrictlyIncreasing | src/main/java/com/example/benchmark/DownloadBenchmark.java:90-92 | for 0 ≤ m < n the sum for n exceeds the sum for m, by at least n² |
| DownloadBenchmark.SumOfSquaresStep | src/main/java/com/example/benchmark/DownloadBenchmark.java:90-92 | for n ≥ 0 the sum for n+1 is the sum for n plus (n+1)², and the same holds for the wrapped `long` results |
| DownloadBenchmark.WrappedSumExactIff | src/main/java/com/example/benchmark/DownloadBenchmark.java:89-93 | wrapping the sum to a `long` leaves it unchanged if and only if n ≤ 3024616 |
| DownloadBenchmark.CallSiteDoesNotOverflow | src/main/java/com/example/benchmark/DownloadBenchmark.java:62-77 | for the argument 500000 used at both call sites the sum is 41666791666750000, within `long` range |
| DownloadBenchmark.FitsInLongIff | src/main/java/com/example/benchmark/DownloadBenchmark.java:89-92 | the exact sum fits in a `long` if and only if n ≤ 3024616 |
| DownloadBenchmark.SquareFitsLong | src/main/java/com/example/benchmark/DownloadBenchmark.java:91 | `(long) i * i` never overflows for any `int` i, because the cast comes before the multiply |
| DownloadBenchmark.LoopGuardNeverFailsAtIntMax | src/main/java/com/example/benchmark/DownloadBenchmark.java:90 | with n == `Integer.MAX_VALUE` every counter value, including the wrapped successor, satisfies `i <= n`, so the loop cannot exit |
| DownloadBenchmark.ToMB | src/main/java/com/example/benchmark/DownloadBenchmark.java:107-109 | for b ≥ 0, 0 ≤ toMB(b) ≤ b and toMB(b)·2^20 ≤ b < (toMB(b)+1)·2^20; the mirror bounds hold for b ≤ 0 |
| DownloadBenchmark.ToMBOfWholeMiB | src/main/java/com/example/benchmark/DownloadBenchmark.java:107-109 | toMB(k·2^20) == k for every k, negative ones included |
| DownloadBenchmark.ToMBOddSymmetric | src/main/java/com/example/benchmark/DownloadBenchmark.java:108 | toMB(-b) == -toMB(b) |
| DownloadBenchmark.ToMBOfMinusOne | src/main/java/com/example/benchmark/DownloadBenchmark.java:100-109 | an unknown heap maximum of -1 is shown as 0 MB, while Euclidean division would give -1 |
| TaskIds.Pad2 | src/main/java/com/example/benchmark/MixedWorkBenchmark.java:237 | `%02d` of a non-negative index is a string of decimal digits at least two characters long |
| TaskIds.TaskId | src/main/java/com/example/benchmark/MixedWorkBenchmark.java:237 | an identifier is its prefix followed by at least two decimal digits |
| TaskIds.DecimalLength | src/main/java/com/example/benchmark/MixedWorkBenchmark.java:237 | an index's decimal form has one digit if and only if it is below 10, and two if and only if it is from 10 to 99 |
| TaskIds.Pad2RoundTrip | src/main/java/com/example/benchmark/MixedWorkBenchmark.java:237 | parsing `%02d` of i gives back i |
| TaskIds.Pad2Length | src/main/java/com/example/benchmark/MixedWorkBenchmark.java:237 | `%02d` of i has exactly two characters if and only if i < 100 |
| TaskIds.TaskIdRoundTrip | src/main/java/com/example/benchmark/MixedWorkBenchmark.java:237 | parsing an identifier with its prefix gives back the task index |
| TaskIds.TaskIdInjective | src/main/java/com/example/benchmark/MixedWorkBenchmark.java:236-237 | two identifiers with one prefix are equal if and only if their indices are |
| TaskIds.PrefixesDisjoint | src/main/java/com/example/benchmark/MixedWorkBenchmark.java:276 | no `React-` identifier equals a `Block-` identifier |
| TaskIds.TaskIds | src/main/java/com/example/benchmark/MixedWorkBenchmark.java:275-276 | the generated list has one identifier per index 0..n-1, in submission order; each parses back to its own index, and no two are equal |
| TaskIds.GeneratedIdsWellFormed | src/main/java/com/example/benchmark/MixedWorkBenchmark.java:236-237 | the 12 generated identifiers are pairwise distinct, and each is its prefix plus exactly two digits |
| TaskAccounting.RecordedCountNeedsSetup | src/main/java/com/example/benchmark/MixedWorkBenchmark.java:84-85 | after any interleaving, `completed` is the inherited count plus this scenario's successes; it equals the successes alone if and only if the inherited count is 0, as `setup` leaves it |
| TaskAccounting.EveryTaskFollowsItsCode | src/main/java/com/example/benchmark/MixedWorkBenchmark.java:238-259 | in every interleaving the allowed steps admit, each task's own steps are a prefix of start, release, completion, `finally`, or of start, exception, `finally`: no skipped release, no counter update after an exception, and the `finally` only after the body has ended, and once |
| TaskAccounting.LatchAfterCountDowns | src/main/java/com/example/benchmark/MixedWorkBenchmark.java:258 | a latch of n is at n − k after k ≤ n calls of `countDown` and stays at 0 after more; it is 0 if and only if at least n calls were made |
| TaskAccounting.LatchCanAlwaysBeReleased | src/main/java/com/example/benchmark/MixedWorkBenchmark.java:238-263 | whatever interleaving has run since the scenario started, failed tasks included, some continuation of allowed steps brings the latch to 0 |
| TaskAccounting.Apply | src/main/java/com/example/benchmark/MixedWorkBenchmark.java:238-259 | one atomic step changes only its own task; start and completion each add one to active + completed, release subtracts one; only `countDown` moves the latch |
| TaskAccounting.Execute | src/main/java/com/example/benchmark/MixedWorkBenchmark.java:236-260 | an interleaving of allowed steps keeps the number of tasks |
| TaskAccounting.ApplyPreservesAccounted | src/main/java/com/example/benchmark/MixedWorkBenchmark.java:238-259 | every atomic step keeps the invariant: active counts running and failed tasks, completed counts successes, and the latch counts tasks whose `finally` has not run |
| TaskAccounting.ExecutePreservesAccounted | src/main/java/com/example/benchmark/MixedWorkBenchmark.java:236-263 | the invariant holds after any interleaving of allowed steps |
| TaskAccounting.StartAccountedFrom | src/main/java/com/example/benchmark/MixedWorkBenchmark.java:233-236 | a scenario starts with no task started and a latch of n, and the invariant holds relative to the counters it inherits |
| TaskAccounting.CountersAfterSetup | src/main/java/com/example/benchmark/MixedWorkBenchmark.java:240-255 | after setup and any interleaving, active ≥ 0, 0 ≤ completed ≤ n, and active + completed equals the started tasks minus those between their two counter updates |
| TaskAccounting.LatchReleasedAfterAllFinish | src/main/java/com/example/benchmark/MixedWorkBenchmark.java:233-263 | the latch is 0 if and only if every task has counted down; then every task has finished, completed counts only successes and is at most n, and completed == n if and only if no task failed, with active back at 0 |
| TaskAccounting.ReactiveAllSucceeded | src/main/java/com/example/benchmark/MixedWorkBenchmark.java:275-305 | when all n reactive tasks succeed, active is back at its starting value and completed has grown by exactly n |
| Reporting.Divide | src/main/java/com/example/benchmark/MixedWorkBenchmark.java:411 | a `double` division is finite if and only if the divisor is non-zero, and then it times the divisor gives the dividend; otherwise it is an infinity of the dividend's sign, or NaN for 0/0 |
| Reporting.AvgPerTask | src/main/java/com/example/benchmark/MixedWorkBenchmark.java:387-388 | the average times 12 is the duration, and it lies between 0 and the duration for a non-negative duration |
| Reporting.PerformanceRatio | src/main/java/com/example/benchmark/MixedWorkBenchmark.java:196-197 | the ratio times 4000 is the duration, and it is ≥ 1 if and only if the duration is ≥ 4000 |
| Reporting.Overhead | src/main/java/com/example/benchmark/MixedWorkBenchmark.java:406-409 | the duration is 4000·(1 + overhead/100); the overhead is ≥ 0 if and only if the duration is ≥ 4000, and 0 if and only if it equals 4000 |
| Reporting.OverheadMatchesRatio | src/main/java/com/example/benchmark/MixedWorkBenchmark.java:196-197 | the final comparison's overhead is the summary's performance ratio as a percentage above 1 |
| Reporting.PercentByMultiplyingFirst | src/main/java/com/example/benchmark/MixedWorkBenchmark.java:113 | `part * 100.0 / whole` is finite for a non-zero whole, and times the whole it gives part · 100 |
| Reporting.PercentByDividingFirst | src/main/java/com/example/benchmark/MixedWorkBenchmark.java:415-417 | `(part / whole) * 100` is finite for a non-zero whole, and times the whole it gives part · 100 |
| Reporting.Improvement | src/main/java/com/example/benchmark/MixedWorkBenchmark.java:410-411 | for a non-zero blocking duration the improvement is finite and improvement · blocking = (blocking − reactive) · 100, the difference taken in `long`; for blocking > 0 and reactive ≥ 0 it is positive if and only if reactive < blocking, and at most 100; for blocking == 0 it is an infinity or NaN |
| Reporting.TasksRowIgnoresResults | src/main/java/com/example/benchmark/MixedWorkBenchmark.java:127-130 | the "Tasks Completed" row as written is the same for any two pairs of results, and shows a scenario's recorded count if and only if that count is 12 |
| Reporting.TasksRowHidesFailures | src/main/java/com/example/benchmark/MixedWorkBenchmark.java:127-130 | a blocking result of 11 completed tasks is still shown as 12 by the row as written |
| Reporting.RecordTable | src/main/java/com/example/benchmark/MixedWorkBenchmark.java:106-130 | the table of `recordResult`: the averages times 12 are the durations; the difference of two non-negative durations is exact; for a non-zero blocking duration each percentage times its base (the blocking duration, the blocking average) is 100 times its difference; the tasks row shows 12 against a target of 12, whatever was recorded |
| Reporting.FinalTable | src/main/java/com/example/benchmark/MixedWorkBenchmark.java:379-399 | the final table's difference is taken in `double`; the average difference times 12 is the duration difference; for a non-zero blocking duration each percentage times its base is 100 times its difference; the tasks row shows 12 against a target of 12, whatever was recorded |
| Reporting.FinalAnalysis | src/main/java/com/example/benchmark/MixedWorkBenchmark.java:403-411 | each duration is 4000 · (1 + its overhead / 100), so each overhead is non-negative if and only if that duration reaches 4000 ms; for a non-zero blocking duration improvement · blocking = (blocking − reactive) · 100, and for positive durations the improvement is positive if and only if reactive was faster |
| Reporting.PercentFormsAgree | src/main/java/com/example/benchmark/MixedWorkBenchmark.java:415-419 | `(d * 100) / b` and `(d / b) * 100` give the same value, the zero-divisor cases included |
| Reporting.PercentOfAveragesAgrees | src/main/java/com/example/benchmark/MixedWorkBenchmark.java:116-124 | dividing both durations by the same positive count leaves the percentage unchanged, so the per-task row's percentage equals the totals' one |
| Reporting.ReportedPercentagesAgree | src/main/java/com/example/benchmark/MixedWorkBenchmark.java:370-411 | for non-negative durations both tables print the same duration difference, and every percentage row and the overall improvement are the same figure |
| ScenarioResults.ProcessFromClassLoad | src/main/java/com/example/benchmark/MixedWorkBenchmark.java:36-56 | from class load, with an empty map and a clear flag, any call sequence prints at most one final comparison; it prints one if and only if the flag ends set, and then both scenarios have results |
| ScenarioResults.FlagOnlyAfterBothRecorded | src/main/java/com/example/benchmark/MixedWorkBenchmark.java:201-206 | if the flag is set only when both scenarios have results, that stays so over any call sequence |
| ScenarioResults.RecordResult | src/main/java/com/example/benchmark/MixedWorkBenchmark.java:90-97 | the new result is stored under its name; other names keep their entries and presence; the flag is unchanged; the table is printed, at most once per call, if and only if both scenarios are present after the put |
| ScenarioResults.PrintBenchmarkSummary | src/main/java/com/example/benchmark/MixedWorkBenchmark.java:172-208 | with no result for the scenario, nothing changes and nothing prints; otherwise exactly one summary is printed and comes first, showing the stored result, its average and its ratio, followed by at most the final comparison; the results are unchanged; the flag ends set if and only if it was set or both are present; one final comparison prints exactly when the flag goes from clear to set, and it compares the stored Blocking and Reactive results |
| ScenarioResults.FinalComparisonAtMostOnce | src/main/java/com/example/benchmark/MixedWorkBenchmark.java:204-206 | over any call sequence the flag never returns to false, and exactly one final comparison prints if and only if the flag went from false to true, so at most one ever does |
| ScenarioResults.ResultsNeverRemoved | src/main/java/com/example/benchmark/MixedWorkBenchmark.java:90-91 | a scenario name, once recorded, stays in the map for every later call |
| ScenarioResults.TableReprintedOnEveryRecord | src/main/java/com/example/benchmark/MixedWorkBenchmark.java:94-97 | once both scenarios are present, the number of tables printed equals the number of later `recordResult` calls |
| ScenarioResults.FinishScenario | src/main/java/com/example/benchmark/MixedWorkBenchmark.java:264-266 | ending a scenario adds or replaces its result and leaves the others; the table appears first exactly when both are present; the final comparison appears last exactly when both are present and the flag was clear |
| ScenarioResults.ScenarioSequenceOutputs | src/main/java/com/example/benchmark/MixedWorkBenchmark.java:307-309 | the first scenario to finish prints only its summary; the second prints table, summary and final comparison; re-running the first prints table and summary but no final comparison, and its new duration replaces the old |
| ScenarioResults.BlockingRowShowsFailures | src/main/java/com/example/benchmark/MixedWorkBenchmark.java:263-265 | a finished blocking run records a completed count between 0 and 12; the corrected tasks row shows the target if and only if no task failed, while the row the table prints shows the target in every case |

## Left out

- Thread pools, their sizing and queue, Reactor scheduling, `flatMap(..., 6)`, the 60 s `block` deadline, `latch.await()` and `tearDown`. These are concurrency and timing. The model keeps only the atomic counter and latch events, in any interleaving.
- The remote calls (`RestTemplate`, `WebClient`), the `SlowServerApplication` endpoint and the two download services. They are network I/O and appear only as task events.
- `simulateCpuWork`. It relies on `Math.random` and `double` accumulation.
- Wall-clock durations (`Instant.now`, `Duration.between`). Durations are parameters.
- All printing: `printHeader`, `logOperation`, `printSystemUsage` (JMX beans), ANSI colours and `%.1f` layout. Outputs are modelled as data, not text.
- JMH annotations, forking and iteration semantics. JMH normally runs each benchmark method in its own forked JVM; there the static map would never hold both scenarios. The model assumes both scenarios run in one process.
- The no-argument `printFinalComparison()` (MixedWorkBenchmark.java:313) and the `formatDifference` overload that takes an extractor (:163). Nothing calls either; they are dead code.
- Reporting.AvgPerTask, Reporting.Overhead, Reporting.Improvement, Reporting.FinalTable, Reporting.RecordTable: these use exact reals, so IEEE `double` rounding and the `long`-to-`double` conversion are not modelled.
- Reporting.Improvement: the sign and bound are stated only for a positive blocking and a non-negative reactive duration. A duration comes from `Instant.now()`, the wall clock, and is negative only if the system clock is set back during a run; the improvement is still computed then, but its sign and bound are not stated.
- DownloadBenchmark.DoCpuWork: requires n < `Integer.MAX_VALUE`, because at that value the loop never ends (LoopGuardNeverFailsAtIntMax).
- TaskIds.Pad2: digits are the ASCII '0' to '9'. `String.format` uses the JVM's default locale, and a locale with other zero digits would print other characters; locales are not modelled.
- TaskAccounting.Apply: the counters are unbounded integers. `AtomicInteger`'s 32-bit wrap cannot be reached with 12 tasks per setup.
- TaskAccounting.ReactiveAllSucceeded: states only the all-succeed case. A reactive task whose remote call raises an error fails the whole `Flux`; `block` then throws and no result is recorded. A remote call that returns an empty body is a second way for a task to fall short: `bodyToMono` (MixedWorkBenchmark.java:284, :294) completes empty, the later `flatMap` and `map` steps (:286, :290, :296) are skipped without an error, and the `Flux` completes with fewer than 12 elements. `block` returns, and :308 records a `completedTasks` below 12 while `activeOperations` stays raised. In the model that task stays `Running`, and RecordedCountNeedsSetup gives the recorded count.

## Findings

| source | as written | input that shows it | evidently intended | confidence | as-written member | corrected member |
|---|---|---|---|---|---|---|
| src/main/java/com/example/benchmark/MixedWorkBenchmark.java:127-130 | the "Tasks Completed" row of both comparison tables prints the constant `NUM_TASKS` (also at :396-399), not the recorded `tasksCompleted` | a blocking run in which one task's remote call throws records 11 completions, and a reactive run in which one remote call returns an empty body records 11 as well; in both the row still shows 12 next to "Target: 12" | show each scenario's recorded `tasksCompleted` next to the target | medium, not executed | Reporting.TasksRowHidesFailures | Reporting.TasksRowOf |

=== FILE: benchmark_config.dfy ===
/**
 The fixed parameters of the mixed-work benchmark that the reports and the
 task loops share.
 */
module BenchmarkConfig {

  /** Number of tasks each scenario submits (`NUM_TASKS`). */
  const NumTasks: nat := 12

  /** Delay of one remote call, in milliseconds. */
  const IoDelayMs: int := 2000

  /** Two sequential remote calls per task: the fixed 4000 ms lower bound the reports compare against. */
  const TheoreticalMinMs: int := 2 * IoDelayMs
}

=== FILE: download_benchmark.dfy ===
/**
 The integer helpers of the download benchmark: the sum-of-squares loop used
 as CPU work, and the byte-to-MiB conversion used when logging heap usage.
 */
module DownloadBenchmark {
  import opened JavaArith

  /** The argument both benchmark methods pass to the CPU work. */
  const CallSiteN: int := 500000

  /** The largest argument whose sum of squares still fits in a `long`. */
  const MaxExactN: int := 3024616

  const BytesPerMiB: int := 1024 * 1024

  /** Reference definition: 1² + 2² + … + n², and 0 when n ≤ 0. */
  function SumOfSquares(n: int): int
    decreases if n > 0 then n else 0
  {
    if n <= 0 then 0 else SumOfSquares(n - 1) + n * n
  }

  /** The closed form of the sum of squares. */
  lemma {:induction false} SumOfSquaresClosedForm(n: nat)
    ensures 6 * SumOfSquares(n) == n * (n + 1) * (2 * n + 1)
  {
    if n > 0 {
      SumOfSquaresClosedForm(n - 1);
      assert 6 * SumOfSquares(n) == (n - 1) * n * (2 * n - 1) + 6 * n * n;
    }
  }

  /** Each further term adds (n+1)², so the sum grows strictly with n ≥ 0. */
  lemma {:induction false} SumOfSquaresStrictlyIncreasing(m: int, n: int)
    requires 0 <= m < n
    ensures SumOfSquares(m) < SumOfSquares(n)
    ensures SumOfSquares(n) - SumOfSquares(m) >= n * n
    decreases n
  {
    if m < n - 1 {
      SumOfSquaresStrictlyIncreasing(m, n - 1);
    }
  }

  /**
   One more loop iteration adds (n+1)² to the exact sum, and the Java result for
   n+1 is the Java result for n plus (n+1)², wrapped.
   */
  lemma SumOfSquaresStep(n: int)
    requires 0 <= n
    ensures SumOfSquares(n + 1) == SumOfSquares(n) + (n + 1) * (n + 1)
    ensures WrapLong(SumOfSquares(n + 1)) == WrapLong(WrapLong(SumOfSquares(n)) + (n + 1) * (n + 1))
  {
    WrapLongAdd(SumOfSquares(n), (n + 1) * (n + 1));
  }

  /** For the argument used at both call sites the sum is far below `Long.MAX_VALUE`. */
  lemma CallSiteDoesNotOverflow()
    ensures SumOfSquares(CallSiteN) == 41666791666750000
    ensures IsLong(SumOfSquares(CallSiteN))
    ensures CallSiteN <= MaxExactN
  {
    SumOfSquaresClosedForm(CallSiteN);
  }

  /** The accumulator stays exact precisely up to MaxExactN. */
  lemma {:induction false} FitsInLongIff(n: int)
    requires 0 <= n
    ensures IsLong(SumOfSquares(n)) <==> n <= MaxExactN
  {
    SumOfSquaresClosedForm(MaxExactN);
    SumOfSquaresClosedForm(MaxExactN + 1);
    assert SumOfSquares(MaxExactN) == 9223371388520336796;
    assert SumOfSquares(MaxExactN + 1) == 9223380536828333485;
    if n < MaxExactN {
      SumOfSquaresStrictlyIncreasing(n, MaxExactN);
      if n > 0 {
        SumOfSquaresStrictlyIncreasing(0, n);
      }
    } else if n > MaxExactN + 1 {
      SumOfSquaresStrictlyIncreasing(MaxExactN + 1, n);
    }
  }

  /** Wrapping the sum to a `long` leaves it unchanged precisely up to MaxExactN. */
  lemma WrappedSumExactIff(n: int)
    requires 0 <= n
    ensures WrapLong(SumOfSquares(n)) == SumOfSquares(n) <==> n <= MaxExactN
  {
    FitsInLongIff(n);
    if !IsLong(SumOfSquares(n)) {
      WrapLongChangesOutOfRange(SumOfSquares(n));
    }
  }

  /**
   `doCpuWork(n)`: a `long` accumulator, an `int` counter from 1 to n, and each
   term computed as `(long) i * i`, the widening done before the multiply.
   With n == Integer.MAX_VALUE the counter wraps before `i <= n` can fail, so
   the loop only ends for smaller n.
   */
  method DoCpuWork(n: int) returns (sum: int)
    requires IsInt(n)
    requires n < IntMax
    ensures IsLong(sum)
    ensures sum == WrapLong(SumOfSquares(n))
    ensures n <= 0 ==> sum == 0
    ensures sum == SumOfSquares(n) <==> n <= MaxExactN
  {
    sum := 0;
    var i := 1;
    while i <= n
      invariant IsInt(i) && 1 <= i
      invariant n >= 1 ==> i <= n + 1
      invariant n < 1 ==> i == 1
      invariant sum == WrapLong(SumOfSquares(i - 1))
      decreases n + 1 - i
    {
      var term := WrapLong(i * i);
      SquareFitsLong(i);
      WrapLongAdd(SumOfSquares(i - 1), i * i);
      sum := WrapLong(sum + term);
      i := WrapInt(i + 1);
    }
    if n >= 0 {
      WrappedSumExactIff(n);
    }
  }

  /** The square of any `int` counter is itself a `long`: the cast before the multiply avoids 32-bit overflow. */
  lemma SquareFitsLong(i: int)
    requires IsInt(i)
    ensures IsLong(i * i)
    ensures 0 <= i * i <= IntMin * IntMin
  {
    var a := if i >= 0 then i else -i;
    assert i * i == a * a;
    MulLeftMonotone(a, a, -IntMin);
    MulLeftMonotone(-IntMin, a, -IntMin);
  }

  lemma MulLeftMonotone(k: int, x: int, y: int)
    requires 0 <= k && x <= y
    ensures k * x <= k * y
  {
    assert k * y - k * x == k * (y - x);
  }

  /** With n == Integer.MAX_VALUE every value the counter can take satisfies `i <= n`, including the wrapped successor. */
  lemma LoopGuardNeverFailsAtIntMax(n: int, i: int)
    requires n == IntMax
    requires IsInt(i)
    ensures i <= n
    ensures WrapInt(i + 1) <= n
    ensures i == IntMax ==> WrapInt(i + 1) == IntMin
  {
  }

  /** `toMB(bytes)`: `bytes / (1024 * 1024)` with Java's truncating `long` division. */
  function ToMB(bytes: int): (mb: int)
    requires IsLong(bytes)
    ensures IsLong(mb)
    ensures bytes >= 0 ==> 0 <= mb <= bytes && mb * BytesPerMiB <= bytes < (mb + 1) * BytesPerMiB
    ensures bytes <= 0 ==> bytes <= mb <= 0 && (mb - 1) * BytesPerMiB < bytes <= mb * BytesPerMiB
  {
    TruncDiv(bytes, BytesPerMiB)
  }

  /** Whole mebibytes convert exactly, negative amounts included. */
  lemma ToMBOfWholeMiB(k: int)
    requires IsLong(k * BytesPerMiB)
    ensures ToMB(k * BytesPerMiB) == k
  {
    var mb := ToMB(k * BytesPerMiB);
    if k >= 0 {
      assert (mb - k) * BytesPerMiB >= 0 && (mb - k) * BytesPerMiB < BytesPerMiB;
    } else {
      assert (k - mb) * BytesPerMiB >= 0 && (k - mb) * BytesPerMiB < BytesPerMiB;
    }
  }

  /** Truncation is symmetric about zero, unlike Euclidean division. */
  lemma ToMBOddSymmetric(bytes: int)
    requires IsLong(bytes) && IsLong(-bytes)
    ensures ToMB(-bytes) == -ToMB(bytes)
  {
  }

  /** An unknown heap maximum of -1 is reported as 0 MB, where Euclidean division would give -1. */
  lemma ToMBOfMinusOne()
    ensures ToMB(-1) == 0
    ensures -1 / BytesPerMiB == -1
  {
  }
}

=== FILE: java_arith.dfy ===
/**
 Java's fixed-width integer semantics, written out over Dafny's unbounded `int`:
 the ranges of `int` and `long`, two's-complement wrap-around, and integer
 division that truncates toward zero (Dafny's own `/` is Euclidean).
 */
module JavaArith {

  const IntMin: int := -0x8000_0000
  const IntMax: int := 0x7fff_ffff
  const LongMin: int := -0x8000_0000_0000_0000
  const LongMax: int := 0x7fff_ffff_ffff_ffff

  const IntModulus: int := 0x1_0000_0000
  const LongModulus: int := 0x1_0000_0000_0000_0000

  predicate IsInt(x: int) {
    IntMin <= x <= IntMax
  }

  predicate IsLong(x: int) {
    LongMin <= x <= LongMax
  }

  /** The 32-bit `int` that Java's arithmetic produces for the exact value `x`. */
  function WrapInt(x: int): (r: int)
    ensures IsInt(r)
    ensures IsInt(x) ==> r == x
  {
    (x - IntMin) % IntModulus + IntMin
  }

  /** The 64-bit `long` that Java's arithmetic produces for the exact value `x`. */
  function WrapLong(x: int): (r: int)
    ensures IsLong(r)
    ensures IsLong(x) ==> r == x
  {
    (x - LongMin) % LongModulus + LongMin
  }

  /** The wrapped value differs from the exact one by a multiple of 2^64. */
  lemma WrapLongCongruence(x: int)
    ensures (x - WrapLong(x)) % LongModulus == 0
  {
    var q := (x - LongMin) / LongModulus;
    assert x - WrapLong(x) == q * LongModulus;
    LongModUnique(x - WrapLong(x), q, 0);
  }

  /** Two values that differ by a multiple of 2^64 wrap to the same `long`. */
  lemma WrapLongCongruent(x: int, y: int)
    requires (x - y) % LongModulus == 0
    ensures WrapLong(x) == WrapLong(y)
  {
    var k := (x - y) / LongModulus;
    assert x - LongMin == (y - LongMin) + k * LongModulus;
    LongModUnique(x - LongMin, (y - LongMin) / LongModulus + k, (y - LongMin) % LongModulus);
  }

  /** Euclidean division by 2^64 is determined by any quotient/remainder split. */
  lemma LongModUnique(x: int, q: int, r: int)
    requires 0 <= r < LongModulus
    requires x == q * LongModulus + r
    ensures x % LongModulus == r
  {
    var q', r' := x / LongModulus, x % LongModulus;
    assert (q - q') * LongModulus == r' - r;
  }

  /**
   Accumulating in a wrapped `long` gives the wrapped exact sum: wrapping after
   every addition is the same as wrapping once at the end.
   */
  lemma WrapLongAdd(a: int, b: int)
    ensures WrapLong(WrapLong(a) + b) == WrapLong(a + b)
  {
    var w := WrapLong(a);
    WrapLongCongruence(a);
    assert ((a + b) - (w + b)) % LongModulus == 0;
    WrapLongCongruent(w + b, a + b);
  }

  /** A value outside the `long` range is never preserved by the wrap. */
  lemma WrapLongChangesOutOfRange(x: int)
    requires !IsLong(x)
    ensures WrapLong(x) != x
  {
  }

  /** The `int` counter of a loop wraps from `Integer.MAX_VALUE` to `Integer.MIN_VALUE`. */
  lemma IntIncrementWraps()
    ensures WrapInt(IntMax + 1) == IntMin
  {
  }

  /**
   Java's `a / d` for a positive divisor: the quotient truncated toward zero,
   so that `-1 / d == 0` where Dafny's Euclidean division gives `-1`.
   */
  function TruncDiv(a: int, d: int): (q: int)
    requires d > 0
    ensures a >= 0 ==> 0 <= a - q * d < d
    ensures a <= 0 ==> 0 <= q * d - a < d
  {
    if a >= 0 then a / d else -((-a) / d)
  }

  /** The Java subtraction `a - b` on two `long` operands. */
  function LongSub(a: int, b: int): (r: int)
    requires IsLong(a) && IsLong(b)
    ensures IsLong(r)
    ensures a >= 0 && b >= 0 ==> r == a - b
    ensures a < 0 && b > 0 && a - b < LongMin ==> r == a - b + LongModulus
  {
    WrapLong(a - b)
  }
}

=== FILE: reporting.dfy ===
/**
 The per-scenario result record and the metrics derived from it for the
 summaries and comparison tables of the mixed-work benchmark. Java computes
 these in `double`; here they are exact `real`s, and a division by zero gives
 the IEEE infinity or NaN that Java would print.
 */
module Reporting {
  import opened JavaArith
  import opened BenchmarkConfig

  /** `BenchmarkResults`: a scenario's name, total duration in ms (a `long`) and completed-task count (an `int`). */
  datatype BenchmarkResult = BenchmarkResult(name: string, duration: int, tasksCompleted: int)

  /** The value of a `double` division, rounding aside. */
  datatype Quotient = Finite(value: real) | PosInfinity | NegInfinity | NotANumber

  /** `x / y` on doubles: finite for a non-zero divisor, otherwise an infinity with the dividend's sign, or NaN for 0/0. */
  function Divide(x: real, y: real): (q: Quotient)
    ensures q.Finite? <==> y != 0.0
    ensures q.Finite? ==> q.value * y == x
    ensures q == PosInfinity <==> y == 0.0 && x > 0.0
    ensures q == NegInfinity <==> y == 0.0 && x < 0.0
    ensures q == NotANumber <==> y == 0.0 && x == 0.0
  {
    if y != 0.0 then Finite(x / y)
    else if x > 0.0 then PosInfinity
    else if x < 0.0 then NegInfinity
    else NotANumber
  }

  /** Multiplying a quotient by a positive constant; infinities and NaN are unchanged. */
  function Scale(q: Quotient, k: real): (r: Quotient)
    requires k > 0.0
    ensures r.Finite? <==> q.Finite?
    ensures r.Finite? ==> r.value == q.value * k
    ensures !q.Finite? ==> r == q
  {
    match q
    case Finite(v) => Finite(v * k)
    case _ => q
  }

  /**
   `q` is `part` expressed as a percentage of `whole`: for a non-zero whole
   it is finite and `q · whole = part · 100`.
   */
  predicate IsPercentOf(q: Quotient, part: real, whole: real) {
    whole != 0.0 ==> q.Finite? && q.value * whole == part * 100.0
  }

  /** `part * 100 / whole` is the percentage of part in whole. */
  lemma PercentByMultiplyingFirst(part: real, whole: real)
    ensures IsPercentOf(Divide(part * 100.0, whole), part, whole)
  {
  }

  /** `(part / whole) * 100` is the percentage of part in whole. */
  lemma PercentByDividingFirst(part: real, whole: real)
    ensures IsPercentOf(Scale(Divide(part, whole), 100.0), part, whole)
  {
    if whole != 0.0 {
      assert (part / whole) * 100.0 * whole == part * 100.0;
    }
  }

  /** Average time per task over the benchmark's 12 tasks. */
  function AvgPerTask(duration: int): (avg: real)
    ensures avg * NumTasks as real == duration as real
    ensures duration >= 0 ==> 0.0 <= avg <= duration as real
  {
    duration as real / NumTasks as real
  }

  /** The summary's "performance ratio": the duration in multiples of the theoretical minimum. */
  function PerformanceRatio(duration: int): (ratio: real)
    ensures ratio * TheoreticalMinMs as real == duration as real
    ensures ratio >= 1.0 <==> duration >= TheoreticalMinMs
  {
    duration as real / TheoreticalMinMs as real
  }

  /** Percentage above the theoretical minimum: `(duration / 4000 - 1) * 100`. */
  function Overhead(duration: int): (pct: real)
    ensures duration as real == TheoreticalMinMs as real * (1.0 + pct / 100.0)
    ensures pct >= 0.0 <==> duration >= TheoreticalMinMs
    ensures pct == 0.0 <==> duration == TheoreticalMinMs
  {
    (duration as real / TheoreticalMinMs as real - 1.0) * 100.0
  }

  /** The overhead in the final comparison is the summary's performance ratio restated as a percentage. */
  lemma OverheadMatchesRatio(duration: int)
    ensures Overhead(duration) == (PerformanceRatio(duration) - 1.0) * 100.0
  {
  }

  /** "Overall improvement": `(double)(blocking - reactive) / blocking * 100`, the difference taken in `long`. */
  function Improvement(blocking: int, reactive: int): (q: Quotient)
    requires IsLong(blocking) && IsLong(reactive)
    ensures blocking == 0 ==> !q.Finite?
    ensures IsPercentOf(q, LongSub(blocking, reactive) as real, blocking as real)
    ensures blocking > 0 && reactive >= 0 ==>
      q.Finite? && (q.value > 0.0 <==> reactive < blocking) && q.value <= 100.0
  {
    ImprovementBounds(blocking, reactive);
    PercentByDividingFirst(LongSub(blocking, reactive) as real, blocking as real);
    Scale(Divide(LongSub(blocking, reactive) as real, blocking as real), 100.0)
  }

  /** For non-negative durations the improvement percentage is positive exactly when reactive was faster, and never above 100. */
  lemma ImprovementBounds(b: int, r: int)
    ensures b > 0 && r >= 0 ==>
      && (((b - r) as real / b as real) * 100.0 > 0.0 <==> r < b)
      && ((b - r) as real / b as real) * 100.0 <= 100.0
  {
    if b > 0 && r >= 0 {
      var f := (b - r) as real / b as real;
      assert f * b as real == (b - r) as real;
      if r < b {
        assert f > 0.0;
      } else {
        assert f <= 0.0;
      }
      assert f <= 1.0;
    }
  }

  /** The "Tasks Completed" row: the counts shown under the scenario columns, and the target. */
  datatype TasksRow = TasksRow(shown: seq<int>, target: int)

  /** As written, the row shows the constant task count, whatever the scenarios recorded. */
  function TasksRowAsWritten(blocking: BenchmarkResult, reactive: BenchmarkResult): (row: TasksRow)
    ensures |row.shown| == 1 && row.shown[0] == row.target
  {
    TasksRow([NumTasks], NumTasks)
  }

  /**
   The row as written does not depend on the results at all: any two pairs of
   results print the same row, and it shows a scenario's recorded count only
   when that count happens to be the target.
   */
  lemma TasksRowIgnoresResults(b1: BenchmarkResult, r1: BenchmarkResult, b2: BenchmarkResult, r2: BenchmarkResult)
    ensures TasksRowAsWritten(b1, r1) == TasksRowAsWritten(b2, r2)
    ensures TasksRowAsWritten(b1, r1).shown[0] == b1.tasksCompleted <==> b1.tasksCompleted == NumTasks
  {
  }

  /** A blocking run with one failed task records 11 completions, and the row as written still shows 12. */
  lemma TasksRowHidesFailures()
    ensures var b := BenchmarkResult("Blocking", 16000, 11);
            var r := BenchmarkResult("Reactive", 8000, 12);
            TasksRowAsWritten(b, r).shown[0] != b.tasksCompleted
  {
  }

  /** The row as evidently intended: each scenario's recorded count next to the target. */
  function TasksRowOf(blocking: BenchmarkResult, reactive: BenchmarkResult): (row: TasksRow)
    ensures |row.shown| == 2
    ensures row.shown[0] == blocking.tasksCompleted && row.shown[1] == reactive.tasksCompleted
    ensures row.target == NumTasks
    ensures row.shown[0] == row.target <==> blocking.tasksCompleted == NumTasks
  {
    TasksRow([blocking.tasksCompleted, reactive.tasksCompleted], NumTasks)
  }

  /** The metric rows of a comparison table, each with its difference and percentage. */
  datatype ComparisonRows = ComparisonRows(
    durationDiff: real, durationPct: Quotient,
    blockingAvg: real, reactiveAvg: real, avgDiff: real, avgPct: Quotient,
    tasks: TasksRow)

  /** The theoretical-analysis block printed below the final comparison table. */
  datatype Analysis = Analysis(blockingOverhead: real, reactiveOverhead: real, improvement: Quotient)

  /**
   The table `recordResult` prints: the duration difference is a `long`
   subtraction and its percentage is `diff * 100.0 / blocking`; the tasks row
   is the one written in the code, which shows the target whatever was recorded.
   */
  function RecordTable(blocking: BenchmarkResult, reactive: BenchmarkResult): (rows: ComparisonRows)
    requires IsLong(blocking.duration) && IsLong(reactive.duration)
    ensures rows.blockingAvg * NumTasks as real == blocking.duration as real
    ensures rows.reactiveAvg * NumTasks as real == reactive.duration as real
    ensures blocking.duration >= 0 && reactive.duration >= 0 ==>
      rows.durationDiff == blocking.duration as real - reactive.duration as real
    ensures rows.avgDiff == rows.blockingAvg - rows.reactiveAvg
    ensures IsPercentOf(rows.durationPct, rows.durationDiff, blocking.duration as real)
    ensures IsPercentOf(rows.avgPct, rows.avgDiff, rows.blockingAvg)
    ensures rows.tasks.shown == [rows.tasks.target] && rows.tasks.target == NumTasks
  {
    var diff := LongSub(blocking.duration, reactive.duration) as real;
    var bAvg := AvgPerTask(blocking.duration);
    var rAvg := AvgPerTask(reactive.duration);
    PercentByMultiplyingFirst(diff, blocking.duration as real);
    PercentByMultiplyingFirst(bAvg - rAvg, bAvg);
    ComparisonRows(
      diff, Divide(diff * 100.0, blocking.duration as real),
      bAvg, rAvg, bAvg - rAvg, Divide((bAvg - rAvg) * 100.0, bAvg),
      TasksRowAsWritten(blocking, reactive))
  }

  /**
   The table `printFinalComparison(blocking, reactive)` prints, through
   `formatDifference(double, double, unit)`: the difference is taken in `double`
   and its percentage is `(diff / blocking) * 100`; the tasks row is again the
   one written in the code.
   */
  function FinalTable(blocking: BenchmarkResult, reactive: BenchmarkResult): (rows: ComparisonRows)
    ensures rows.durationDiff == blocking.duration as real - reactive.duration as real
    ensures rows.avgDiff * NumTasks as real == rows.durationDiff
    ensures rows.blockingAvg * NumTasks as real == blocking.duration as real
    ensures rows.avgDiff == rows.blockingAvg - rows.reactiveAvg
    ensures IsPercentOf(rows.durationPct, rows.durationDiff, blocking.duration as real)
    ensures IsPercentOf(rows.avgPct, rows.avgDiff, rows.blockingAvg)
    ensures rows.tasks.shown == [rows.tasks.target] && rows.tasks.target == NumTasks
  {
    var bd := blocking.duration as real;
    var rd := reactive.duration as real;
    var bAvg := AvgPerTask(blocking.duration);
    var rAvg := AvgPerTask(reactive.duration);
    PercentByDividingFirst(bd - rd, bd);
    PercentByDividingFirst(bAvg - rAvg, bAvg);
    ComparisonRows(
      bd - rd, Scale(Divide(bd - rd, bd), 100.0),
      bAvg, rAvg, bAvg - rAvg, Scale(Divide(bAvg - rAvg, bAvg), 100.0),
      TasksRowAsWritten(blocking, reactive))
  }

  function FinalAnalysis(blocking: BenchmarkResult, reactive: BenchmarkResult): (a: Analysis)
    requires IsLong(blocking.duration) && IsLong(reactive.duration)
    ensures blocking.duration as real == TheoreticalMinMs as real * (1.0 + a.blockingOverhead / 100.0)
    ensures reactive.duration as real == TheoreticalMinMs as real * (1.0 + a.reactiveOverhead / 100.0)
    ensures IsPercentOf(a.improvement, LongSub(blocking.duration, reactive.duration) as real, blocking.duration as real)
    ensures a.blockingOverhead >= 0.0 <==> blocking.duration >= TheoreticalMinMs
    ensures a.reactiveOverhead >= 0.0 <==> reactive.duration >= TheoreticalMinMs
    ensures blocking.duration > 0 && reactive.duration >= 0 ==>
      a.improvement.Finite? && (a.improvement.value > 0.0 <==> reactive.duration < blocking.duration)
  {
    Analysis(Overhead(blocking.duration), Overhead(reactive.duration), Improvement(blocking.duration, reactive.duration))
  }

  /** `(d * 100) / b` and `(d / b) * 100` are the same double value, rounding aside, including when b is zero. */
  lemma PercentFormsAgree(d: real, b: real)
    ensures Divide(d * 100.0, b) == Scale(Divide(d, b), 100.0)
  {
    if b != 0.0 {
      assert (d * 100.0) / b == (d / b) * 100.0;
    }
  }

  /** Dividing both terms of a ratio by the same positive count (the task count, for the averages) leaves the percentage unchanged. */
  lemma PercentOfAveragesAgrees(bd: real, rd: real, n: real)
    requires n > 0.0
    ensures Divide((bd / n - rd / n) * 100.0, bd / n) == Divide((bd - rd) * 100.0, bd)
  {
    if bd != 0.0 {
      var x := (bd - rd) * 100.0;
      assert (bd / n - rd / n) * 100.0 == x / n;
      assert (x / n) / (bd / n) == x / bd;
    }
  }

  /**
   For non-negative durations every percentage the reports print for the two
   scenarios is the same figure: the duration and per-task rows of both tables
   and the overall improvement all agree, the zero-duration NaN/infinity included.
   */
  lemma ReportedPercentagesAgree(blocking: BenchmarkResult, reactive: BenchmarkResult)
    requires IsLong(blocking.duration) && IsLong(reactive.duration)
    requires blocking.duration >= 0 && reactive.duration >= 0
    ensures var rec := RecordTable(blocking, reactive);
            var fin := FinalTable(blocking, reactive);
            && rec.durationDiff == fin.durationDiff
            && rec.durationPct == fin.durationPct
            && rec.avgPct == rec.durationPct
            && fin.avgPct == fin.durationPct
            && FinalAnalysis(blocking, reactive).improvement == fin.durationPct
  {
    var bd := blocking.duration as real;
    var rd := reactive.duration as real;
    PercentFormsAgree(bd - rd, bd);
    var n := NumTasks as real;
    PercentOfAveragesAgrees(bd, rd, n);
    var bAvg := AvgPerTask(blocking.duration);
    var rAvg := AvgPerTask(reactive.duration);
    assert bAvg == bd / n && rAvg == rd / n;
    PercentFormsAgree(bAvg - rAvg, bAvg);
  }
}

=== FILE: scenario_results.dfy ===
/**
 The process-wide bookkeeping of the mixed-work benchmark: the static map
 from scenario name to its result, the static `finalSummaryPrinted` flag,
 and the two places that decide whether a comparison is printed —
 `recordResult`, which checks only that both scenarios are present, and
 `printBenchmarkSummary`, which also checks and sets the flag.
 */
module ScenarioResults {
  import opened JavaArith
  import opened Reporting
  import opened BenchmarkConfig
  import TaskAccounting

  const Blocking: string := "Blocking"
  const Reactive: string := "Reactive"

  /** What the bookkeeping prints, abstracted from its text layout. */
  datatype Output =
    | ComparisonPrinted(rows: ComparisonRows)
    | SummaryPrinted(result: BenchmarkResult, avg: real, ratio: real)
    | FinalComparisonPrinted(rows: ComparisonRows, analysis: Analysis)

  /** The static `results` map and the static `finalSummaryPrinted` flag. */
  datatype Registry = Registry(results: map<string, BenchmarkResult>, finalSummaryPrinted: bool)

  /** Every entry is stored under its own name and holds Java-typed values. */
  predicate ValidRegistry(reg: Registry) {
    forall k :: k in reg.results ==>
      reg.results[k].name == k && IsLong(reg.results[k].duration) && IsInt(reg.results[k].tasksCompleted)
  }

  /** The state when the class is loaded: no results, flag cleared. */
  function InitialRegistry(): (reg: Registry)
    ensures ValidRegistry(reg)
    ensures reg.results == map[] && !reg.finalSummaryPrinted
  {
    Registry(map[], false)
  }

  predicate BothPresent(results: map<string, BenchmarkResult>) {
    Blocking in results && Reactive in results
  }

  /**
   `recordResult(name, duration, tasksCompleted)`: stores the result under its
   name, replacing any earlier one, then prints the comparison table whenever
   both scenarios are present — with no flag, so on every such call.
   */
  function RecordResult(reg: Registry, name: string, duration: int, tasksCompleted: int): (r: (Registry, seq<Output>))
    requires ValidRegistry(reg)
    requires IsLong(duration) && IsInt(tasksCompleted)
    ensures ValidRegistry(r.0)
    ensures name in r.0.results && r.0.results[name] == BenchmarkResult(name, duration, tasksCompleted)
    ensures forall k :: k != name ==> (k in r.0.results <==> k in reg.results)
    ensures forall k :: k != name && k in reg.results ==> r.0.results[k] == reg.results[k]
    ensures r.0.finalSummaryPrinted == reg.finalSummaryPrinted
    ensures |r.1| <= 1
    ensures r.1 != [] <==> BothPresent(r.0.results)
    ensures r.1 != [] ==> r.1[0] == ComparisonPrinted(RecordTable(r.0.results[Blocking], r.0.results[Reactive]))
  {
    var results := reg.results[name := BenchmarkResult(name, duration, tasksCompleted)];
    var reg' := Registry(results, reg.finalSummaryPrinted);
    if BothPresent(results) then
      (reg', [ComparisonPrinted(RecordTable(results[Blocking], results[Reactive]))])
    else
      (reg', [])
  }

  /**
   `printBenchmarkSummary(scenario)`: nothing at all when the scenario has no
   result; otherwise its summary, followed by the final comparison if both
   scenarios are present and the flag is still clear, the flag being set first.
   */
  function PrintBenchmarkSummary(reg: Registry, scenario: string): (r: (Registry, seq<Output>))
    requires ValidRegistry(reg)
    ensures scenario !in reg.results ==> r == (reg, [])
    ensures r.0.results == reg.results
    ensures r.0.finalSummaryPrinted
        <==> reg.finalSummaryPrinted || (scenario in reg.results && BothPresent(reg.results))
    ensures CountFinal(r.1) == (if !reg.finalSummaryPrinted && r.0.finalSummaryPrinted then 1 else 0)
    ensures CountTables(r.1) == 0
    ensures scenario in reg.results ==>
      |r.1| == (if !reg.finalSummaryPrinted && r.0.finalSummaryPrinted then 2 else 1)
    ensures !reg.finalSummaryPrinted && r.0.finalSummaryPrinted ==>
      var b := reg.results[Blocking];
      var rr := reg.results[Reactive];
      r.1[|r.1| - 1] == FinalComparisonPrinted(FinalTable(b, rr), FinalAnalysis(b, rr))
    ensures scenario in reg.results ==>
      |r.1| >= 1 && r.1[0].SummaryPrinted? && r.1[0].result == reg.results[scenario]
      && r.1[0].avg * NumTasks as real == reg.results[scenario].duration as real
      && r.1[0].ratio * TheoreticalMinMs as real == reg.results[scenario].duration as real
  {
    if scenario !in reg.results then (reg, [])
    else
      var current := reg.results[scenario];
      var summary := [SummaryPrinted(current, AvgPerTask(current.duration), PerformanceRatio(current.duration))];
      if BothPresent(reg.results) && !reg.finalSummaryPrinted then
        var b := reg.results[Blocking];
        var rr := reg.results[Reactive];
        var final := [FinalComparisonPrinted(FinalTable(b, rr), FinalAnalysis(b, rr))];
        var outs := summary + final;
        SingleOutputCounts(summary);
        SingleOutputCounts(final);
        CountsAppend(summary, final);
        assert |outs| == 2 && outs[0] == summary[0] && outs[1] == final[0];
        (Registry(reg.results, true), outs)
      else
        SingleOutputCounts(summary);
        (reg, summary)
  }

  /** Number of final comparisons among the outputs. */
  function CountFinal(outs: seq<Output>): nat
    decreases |outs|
  {
    if |outs| == 0 then 0
    else (if outs[0].FinalComparisonPrinted? then 1 else 0) + CountFinal(outs[1..])
  }

  /** Number of unguarded comparison tables among the outputs. */
  function CountTables(outs: seq<Output>): nat
    decreases |outs|
  {
    if |outs| == 0 then 0
    else (if outs[0].ComparisonPrinted? then 1 else 0) + CountTables(outs[1..])
  }

  /** The counts of a single output. */
  lemma SingleOutputCounts(outs: seq<Output>)
    requires |outs| == 1
    ensures CountFinal(outs) == (if outs[0].FinalComparisonPrinted? then 1 else 0)
    ensures CountTables(outs) == (if outs[0].ComparisonPrinted? then 1 else 0)
  {
    assert outs[1..] == [];
  }

  lemma {:induction false} CountsAppend(a: seq<Output>, b: seq<Output>)
    ensures CountFinal(a + b) == CountFinal(a) + CountFinal(b)
    ensures CountTables(a + b) == CountTables(a) + CountTables(b)
    decreases |a|
  {
    if |a| > 0 {
      assert (a + b)[0] == a[0];
      assert (a + b)[1..] == a[1..] + b;
      CountsAppend(a[1..], b);
      assert CountFinal(a + b) == (if a[0].FinalComparisonPrinted? then 1 else 0) + CountFinal(a[1..] + b);
      assert CountTables(a + b) == (if a[0].ComparisonPrinted? then 1 else 0) + CountTables(a[1..] + b);
    } else {
      assert a + b == b;
    }
  }

  /** A call into the bookkeeping, as the two scenario methods make them. */
  datatype Call =
    | Record(name: string, duration: int, tasksCompleted: int)
    | Summary(scenario: string)

  predicate WellTyped(calls: seq<Call>) {
    forall i :: 0 <= i < |calls| && calls[i].Record? ==>
      IsLong(calls[i].duration) && IsInt(calls[i].tasksCompleted)
  }

  function Step(reg: Registry, call: Call): (r: (Registry, seq<Output>))
    requires ValidRegistry(reg)
    requires call.Record? ==> IsLong(call.duration) && IsInt(call.tasksCompleted)
    ensures ValidRegistry(r.0)
  {
    match call
    case Record(name, duration, tasks) => RecordResult(reg, name, duration, tasks)
    case Summary(scenario) => PrintBenchmarkSummary(reg, scenario)
  }

  /** A whole sequence of calls, the outputs concatenated in order. */
  function Run(reg: Registry, calls: seq<Call>): (r: (Registry, seq<Output>))
    requires ValidRegistry(reg) && WellTyped(calls)
    ensures ValidRegistry(r.0)
    decreases |calls|
  {
    if |calls| == 0 then (reg, [])
    else
      var (reg1, outs1) := Step(reg, calls[0]);
      var (reg2, outs2) := Run(reg1, calls[1..]);
      (reg2, outs1 + outs2)
  }

  /** The number of Record calls in a call sequence. */
  function CountRecords(calls: seq<Call>): nat
    decreases |calls|
  {
    if |calls| == 0 then 0 else (if calls[0].Record? then 1 else 0) + CountRecords(calls[1..])
  }

  /**
   Over any call sequence the guarded final comparison is printed at most once:
   the flag never goes back to false, and exactly one final comparison is
   printed if and only if the flag went from false to true.
   */
  lemma {:induction false} FinalComparisonAtMostOnce(reg: Registry, calls: seq<Call>)
    requires ValidRegistry(reg) && WellTyped(calls)
    ensures reg.finalSummaryPrinted ==> Run(reg, calls).0.finalSummaryPrinted
    ensures CountFinal(Run(reg, calls).1)
         == (if !reg.finalSummaryPrinted && Run(reg, calls).0.finalSummaryPrinted then 1 else 0)
    ensures CountFinal(Run(reg, calls).1) <= 1
    decreases |calls|
  {
    if |calls| > 0 {
      var (reg1, outs1) := Step(reg, calls[0]);
      FinalComparisonAtMostOnce(reg1, calls[1..]);
      CountsAppend(outs1, Run(reg1, calls[1..]).1);
    }
  }

  /** Results are only ever added or replaced: every name once present stays present. */
  lemma {:induction false} ResultsNeverRemoved(reg: Registry, calls: seq<Call>)
    requires ValidRegistry(reg) && WellTyped(calls)
    ensures reg.results.Keys <= Run(reg, calls).0.results.Keys
    decreases |calls|
  {
    if |calls| > 0 {
      var (reg1, outs1) := Step(reg, calls[0]);
      ResultsNeverRemoved(reg1, calls[1..]);
    }
  }

  /**
   Once both scenarios have results, every further `recordResult` prints the
   unguarded comparison table again: the number of tables equals the number of
   Record calls, however many there are.
   */
  lemma {:induction false} TableReprintedOnEveryRecord(reg: Registry, calls: seq<Call>)
    requires ValidRegistry(reg) && WellTyped(calls)
    requires BothPresent(reg.results)
    ensures CountTables(Run(reg, calls).1) == CountRecords(calls)
    decreases |calls|
  {
    if |calls| > 0 {
      var (reg1, outs1) := Step(reg, calls[0]);
      assert BothPresent(reg1.results);
      TableReprintedOnEveryRecord(reg1, calls[1..]);
      CountsAppend(outs1, Run(reg1, calls[1..]).1);
      assert calls[0].Record? ==> CountTables(outs1) == 1;
    }
  }

  /**
   The flag is set only once both scenarios have results: this holds at class
   load and after every call sequence, since results are never removed.
   */
  lemma {:induction false} FlagOnlyAfterBothRecorded(reg: Registry, calls: seq<Call>)
    requires ValidRegistry(reg) && WellTyped(calls)
    requires reg.finalSummaryPrinted ==> BothPresent(reg.results)
    ensures Run(reg, calls).0.finalSummaryPrinted ==> BothPresent(Run(reg, calls).0.results)
    decreases |calls|
  {
    if |calls| > 0 {
      var (reg1, outs1) := Step(reg, calls[0]);
      FlagOnlyAfterBothRecorded(reg1, calls[1..]);
    }
  }

  /**
   From class load, a process prints the final comparison at most once, and
   when it has printed one, both scenarios have results.
   */
  lemma ProcessFromClassLoad(calls: seq<Call>)
    requires WellTyped(calls)
    ensures var (reg, outs) := Run(InitialRegistry(), calls);
      && CountFinal(outs) <= 1
      && (CountFinal(outs) == 1 <==> reg.finalSummaryPrinted)
      && (CountFinal(outs) == 1 ==> BothPresent(reg.results))
  {
    FinalComparisonAtMostOnce(InitialRegistry(), calls);
    FlagOnlyAfterBothRecorded(InitialRegistry(), calls);
  }

  /** The tail of either scenario method: record the result, then print its summary. */
  function FinishScenario(reg: Registry, name: string, duration: int, tasksCompleted: int): (r: (Registry, seq<Output>))
    requires ValidRegistry(reg) && IsLong(duration) && IsInt(tasksCompleted)
    ensures ValidRegistry(r.0)
    ensures r.0.results.Keys == reg.results.Keys + {name}
    ensures r.0.results[name] == BenchmarkResult(name, duration, tasksCompleted)
    ensures forall k :: k != name && k in reg.results ==> r.0.results[k] == reg.results[k]
    ensures r.0.finalSummaryPrinted <==> reg.finalSummaryPrinted || BothPresent(r.0.results)
    ensures |r.1| == (if BothPresent(r.0.results) then 1 else 0) + 1
                     + (if BothPresent(r.0.results) && !reg.finalSummaryPrinted then 1 else 0)
    ensures BothPresent(r.0.results) ==> r.1[0].ComparisonPrinted?
    ensures r.1[|r.1| - 1].FinalComparisonPrinted? <==> BothPresent(r.0.results) && !reg.finalSummaryPrinted
    ensures r.1 == Run(reg, [Record(name, duration, tasksCompleted), Summary(name)]).1
  {
    var (reg1, outs1) := RecordResult(reg, name, duration, tasksCompleted);
    var (reg2, outs2) := PrintBenchmarkSummary(reg1, name);
    var calls := [Record(name, duration, tasksCompleted), Summary(name)];
    assert calls[1..] == [Summary(name)];
    assert [Summary(name)][1..] == [];
    assert Run(reg1, [Summary(name)]) == (reg2, outs2 + []);
    assert outs2 + [] == outs2;
    (reg2, outs1 + outs2)
  }

  /**
   In one process, the first scenario to finish prints only its summary; the
   second prints the unguarded table, its summary and the final comparison; a
   third run of either scenario prints the table and its summary but no
   further final comparison.
   */
  lemma ScenarioSequenceOutputs(first: string, second: string, d1: int, d2: int, d3: int, c1: int, c2: int, c3: int)
    requires (first == Blocking && second == Reactive) || (first == Reactive && second == Blocking)
    requires IsLong(d1) && IsLong(d2) && IsLong(d3) && IsInt(c1) && IsInt(c2) && IsInt(c3)
    ensures var (reg1, out1) := FinishScenario(InitialRegistry(), first, d1, c1);
            var (reg2, out2) := FinishScenario(reg1, second, d2, c2);
            var (reg3, out3) := FinishScenario(reg2, first, d3, c3);
            && |out1| == 1 && out1[0].SummaryPrinted?
            && |out2| == 3 && out2[0].ComparisonPrinted? && out2[1].SummaryPrinted? && out2[2].FinalComparisonPrinted?
            && |out3| == 2 && out3[0].ComparisonPrinted? && out3[1].SummaryPrinted?
            && reg3.results[first].duration == d3 && reg3.results[second].duration == d2
  {
  }

  /**
   A finished blocking run records its `completedTasks` counter. The corrected
   tasks row then shows the target exactly when no task failed, whereas the row
   the table prints as written shows the target in every case.
   */
  lemma BlockingRowShowsFailures(reg: Registry, events: seq<TaskAccounting.Event>, duration: int)
    requires ValidRegistry(reg) && IsLong(duration)
    requires var s := TaskAccounting.Execute(TaskAccounting.StartScenario(TaskAccounting.Setup(), NumTasks), events);
      s.Some? && s.value.latch == 0
    ensures var s := TaskAccounting.Execute(TaskAccounting.StartScenario(TaskAccounting.Setup(), NumTasks), events).value;
            0 <= s.counters.completed <= NumTasks
    ensures var s := TaskAccounting.Execute(TaskAccounting.StartScenario(TaskAccounting.Setup(), NumTasks), events).value;
            var reg' := RecordResult(reg, Blocking, duration, s.counters.completed).0;
            var row := TasksRowOf(reg'.results[Blocking], BenchmarkResult(Reactive, 0, 0));
            row.shown[0] == row.target <==> TaskAccounting.CountPhase(s.tasks, TaskAccounting.Failed) == 0
    ensures var s := TaskAccounting.Execute(TaskAccounting.StartScenario(TaskAccounting.Setup(), NumTasks), events).value;
            var reg' := RecordResult(reg, Blocking, duration, s.counters.completed).0;
            var printed := RecordTable(reg'.results[Blocking], BenchmarkResult(Reactive, 0, 0)).tasks;
            printed.shown[0] == printed.target
  {
    TaskAccounting.LatchReleasedAfterAllFinish(NumTasks, events);
    TaskAccounting.CountersAfterSetup(NumTasks, events);
  }
}

=== FILE: task_accounting.dfy ===
/**
 Per-task accounting of the mixed-work benchmark. Two shared counters
 (`activeOperations`, `completedTasks`) and, in the blocking scenario, a
 countdown latch are updated by concurrently running tasks. Every update is
 one atomic operation, so any interleaving is a sequence of the events below
 applied to an immutable state.
 */
module TaskAccounting {

  /** The two shared counters; a benchmark instance's `setup` resets both to zero. */
  datatype Counters = Counters(active: int, completed: int)

  /**
   Where a task's pipeline is:
   - Pending: submitted, not yet started;
   - Running: `activeOperations` incremented, I/O and CPU work under way;
   - Releasing: `activeOperations` decremented, `completedTasks` not yet incremented;
   - Succeeded: both counter updates of a successful completion done;
   - Failed: an I/O or CPU step threw after the start, skipping both updates.
   */
  datatype Phase = Pending | Running | Releasing | Succeeded | Failed

  /** A task and whether its `finally` block has counted the latch down. */
  datatype Task = Task(phase: Phase, countedDown: bool)

  datatype Scenario = Scenario(counters: Counters, latch: int, tasks: seq<Task>)

  datatype Action =
    | Begin      // activeOperations.incrementAndGet()
    | Throw      // an exception escapes the task body
    | Release    // activeOperations.decrementAndGet()
    | Complete   // completedTasks.incrementAndGet()
    | CountDown  // latch.countDown() in the finally block

  datatype Event = Event(task: nat, action: Action)

  /** The counter values right after `setup`. */
  function Setup(): (c: Counters)
    ensures c.active == 0 && c.completed == 0
  {
    Counters(0, 0)
  }

  /** A scenario of n submitted tasks; the counters are inherited, not reset, and the latch starts at n. */
  function StartScenario(c: Counters, n: nat): (s: Scenario)
    ensures s.counters == c && s.latch == n && |s.tasks| == n
    ensures forall i :: 0 <= i < n ==> s.tasks[i] == Task(Pending, false)
  {
    Scenario(c, n, seq(n, _ => Task(Pending, false)))
  }

  predicate Finished(p: Phase) {
    p == Succeeded || p == Failed
  }

  /**
   Which steps the task code allows next for this task. The `finally` block
   runs only after the body has ended, normally or by an exception, and only
   once; no body step follows it, and nothing can throw between the two
   counter updates of a successful completion.
   */
  predicate Enabled(s: Scenario, e: Event)
    ensures Enabled(s, e) ==> e.task < |s.tasks|
    ensures Enabled(s, e) && e.action == CountDown ==>
      Finished(s.tasks[e.task].phase) && !s.tasks[e.task].countedDown
    ensures Enabled(s, e) && e.action != CountDown ==> !Finished(s.tasks[e.task].phase)
    ensures Enabled(s, e) && e.action == Throw ==> s.tasks[e.task].phase == Running
  {
    e.task < |s.tasks| &&
    var t := s.tasks[e.task];
    match e.action
    case Begin => t.phase == Pending
    case Throw => t.phase == Running
    case Release => t.phase == Running
    case Complete => t.phase == Releasing
    case CountDown => Finished(t.phase) && !t.countedDown
  }

  /** `CountDownLatch.countDown()`: decrements a positive count and leaves zero alone. */
  function LatchCountDown(count: int): (r: int)
    ensures count > 0 ==> r == count - 1
    ensures count <= 0 ==> r == count
  {
    if count > 0 then count - 1 else count
  }

  /** The latch after `k` calls of `countDown`. */
  function CountDownTimes(count: int, k: nat): int
    decreases k
  {
    if k == 0 then count else CountDownTimes(LatchCountDown(count), k - 1)
  }

  /**
   A latch created with count n reaches zero after exactly n calls of
   `countDown` and stays there: `await` returns once every one of the n tasks
   has run its `finally`, and not before.
   */
  lemma {:induction false} LatchAfterCountDowns(count: nat, k: nat)
    ensures CountDownTimes(count, k) == if k <= count then count - k else 0
    ensures CountDownTimes(count, k) == 0 <==> k >= count
    decreases k
  {
    if k > 0 {
      LatchAfterCountDowns(LatchCountDown(count), k - 1);
    }
  }

  /** One atomic step of one task. */
  function Apply(s: Scenario, e: Event): (s': Scenario)
    requires Enabled(s, e)
    ensures |s'.tasks| == |s.tasks|
    ensures forall i :: 0 <= i < |s.tasks| && i != e.task ==> s'.tasks[i] == s.tasks[i]
    ensures e.action != CountDown ==> s'.latch == s.latch
    ensures s'.counters.active + s'.counters.completed
         == s.counters.active + s.counters.completed
            + (if e.action == Begin then 1 else if e.action == Release then -1
               else if e.action == Complete then 1 else 0)
  {
    var t := s.tasks[e.task];
    var c := s.counters;
    match e.action
    case Begin =>
      Scenario(Counters(c.active + 1, c.completed), s.latch, s.tasks[e.task := Task(Running, t.countedDown)])
    case Throw =>
      Scenario(c, s.latch, s.tasks[e.task := Task(Failed, t.countedDown)])
    case Release =>
      Scenario(Counters(c.active - 1, c.completed), s.latch, s.tasks[e.task := Task(Releasing, t.countedDown)])
    case Complete =>
      Scenario(Counters(c.active, c.completed + 1), s.latch, s.tasks[e.task := Task(Succeeded, t.countedDown)])
    case CountDown =>
      Scenario(c, LatchCountDown(s.latch), s.tasks[e.task := Task(t.phase, true)])
  }

  /** Applies the events in order; None if some event is not allowed at its point. */
  function Execute(s: Scenario, events: seq<Event>): (r: Option<Scenario>)
    ensures r.Some? ==> |r.value.tasks| == |s.tasks|
    ensures r.Some? && events == [] ==> r.value == s
    decreases |events|
  {
    if |events| == 0 then Some(s)
    else if Enabled(s, events[0]) then Execute(Apply(s, events[0]), events[1..])
    else None
  }

  datatype Option<T> = None | Some(value: T)

  function CountPhase(tasks: seq<Task>, p: Phase): (k: nat)
    ensures k <= |tasks|
    decreases |tasks|
  {
    if |tasks| == 0 then 0
    else CountPhase(tasks[..|tasks| - 1], p) + (if tasks[|tasks| - 1].phase == p then 1 else 0)
  }

  function CountCountedDown(tasks: seq<Task>): (k: nat)
    ensures k <= |tasks|
    decreases |tasks|
  {
    if |tasks| == 0 then 0
    else CountCountedDown(tasks[..|tasks| - 1]) + (if tasks[|tasks| - 1].countedDown then 1 else 0)
  }

  /** Number of tasks that have started, i.e. are no longer Pending. */
  function Started(tasks: seq<Task>): nat {
    |tasks| - CountPhase(tasks, Pending)
  }

  /**
   The accounting invariant relative to the counters `base` the scenario began with:
   `active` counts tasks started and not released (a failed task is never released),
   `completed` counts successes, the latch counts tasks whose `finally` has not run,
   and only finished tasks have counted down.
   */
  ghost predicate Accounted(s: Scenario, base: Counters) {
    && s.counters.active == base.active + CountPhase(s.tasks, Running) + CountPhase(s.tasks, Failed)
    && s.counters.completed == base.completed + CountPhase(s.tasks, Succeeded)
    && s.latch == |s.tasks| - CountCountedDown(s.tasks)
    && forall i :: 0 <= i < |s.tasks| && s.tasks[i].countedDown ==> Finished(s.tasks[i].phase)
  }

  /** Replacing one task changes a phase count by the difference at that position only. */
  lemma {:induction false} CountPhaseUpdate(tasks: seq<Task>, i: nat, t: Task, p: Phase)
    requires i < |tasks|
    ensures CountPhase(tasks[i := t], p)
         == CountPhase(tasks, p) - (if tasks[i].phase == p then 1 else 0) + (if t.phase == p then 1 else 0)
    decreases |tasks|
  {
    var n := |tasks|;
    var u := tasks[i := t];
    if i < n - 1 {
      assert u[..n - 1] == tasks[..n - 1][i := t];
      CountPhaseUpdate(tasks[..n - 1], i, t, p);
    } else {
      assert u[..n - 1] == tasks[..n - 1];
    }
  }

  lemma {:induction false} CountCountedDownUpdate(tasks: seq<Task>, i: nat, t: Task)
    requires i < |tasks|
    ensures CountCountedDown(tasks[i := t])
         == CountCountedDown(tasks) - (if tasks[i].countedDown then 1 else 0) + (if t.countedDown then 1 else 0)
    decreases |tasks|
  {
    var n := |tasks|;
    var u := tasks[i := t];
    if i < n - 1 {
      assert u[..n - 1] == tasks[..n - 1][i := t];
      CountCountedDownUpdate(tasks[..n - 1], i, t);
    } else {
      assert u[..n - 1] == tasks[..n - 1];
    }
  }

  /** Every task is in exactly one phase. */
  lemma {:induction false} PhasesPartition(tasks: seq<Task>)
    ensures CountPhase(tasks, Pending) + CountPhase(tasks, Running) + CountPhase(tasks, Releasing)
          + CountPhase(tasks, Succeeded) + CountPhase(tasks, Failed) == |tasks|
    decreases |tasks|
  {
    if |tasks| > 0 {
      PhasesPartition(tasks[..|tasks| - 1]);
    }
  }

  /** A count equal to the length means every task has that phase. */
  lemma {:induction false} CountPhaseAll(tasks: seq<Task>, p: Phase)
    requires CountPhase(tasks, p) == |tasks|
    ensures forall i :: 0 <= i < |tasks| ==> tasks[i].phase == p
    decreases |tasks|
  {
    if |tasks| > 0 {
      CountPhaseAll(tasks[..|tasks| - 1], p);
      assert forall i :: 0 <= i < |tasks| - 1 ==> tasks[i] == tasks[..|tasks| - 1][i];
    }
  }

  lemma {:induction false} CountCountedDownAll(tasks: seq<Task>)
    requires CountCountedDown(tasks) == |tasks|
    ensures forall i :: 0 <= i < |tasks| ==> tasks[i].countedDown
    decreases |tasks|
  {
    if |tasks| > 0 {
      CountCountedDownAll(tasks[..|tasks| - 1]);
      assert forall i :: 0 <= i < |tasks| - 1 ==> tasks[i] == tasks[..|tasks| - 1][i];
    }
  }

  /** A task that has not counted down keeps the latch positive. */
  lemma {:induction false} UncountedTaskKeepsLatchPositive(tasks: seq<Task>, i: nat)
    requires i < |tasks| && !tasks[i].countedDown
    ensures CountCountedDown(tasks) < |tasks|
  {
    CountCountedDownUpdate(tasks, i, Task(tasks[i].phase, true));
  }

  lemma {:induction false} CountsOfFresh(n: nat)
    ensures CountPhase(StartScenario(Counters(0, 0), n).tasks, Running) == 0
    ensures CountPhase(StartScenario(Counters(0, 0), n).tasks, Failed) == 0
    ensures CountPhase(StartScenario(Counters(0, 0), n).tasks, Succeeded) == 0
    ensures CountCountedDown(StartScenario(Counters(0, 0), n).tasks) == 0
  {
    if n > 0 {
      CountsOfFresh(n - 1);
      assert StartScenario(Counters(0, 0), n).tasks[..n - 1] == StartScenario(Counters(0, 0), n - 1).tasks;
    }
  }

  /** Each atomic step keeps the accounting invariant. */
  lemma ApplyPreservesAccounted(s: Scenario, e: Event, base: Counters)
    requires Accounted(s, base)
    requires Enabled(s, e)
    ensures Accounted(Apply(s, e), base)
  {
    var s' := Apply(s, e);
    var i := e.task;
    var t' := s'.tasks[i];
    assert s'.tasks == s.tasks[i := t'];
    CountPhaseUpdate(s.tasks, i, t', Running);
    CountPhaseUpdate(s.tasks, i, t', Failed);
    CountPhaseUpdate(s.tasks, i, t', Succeeded);
    CountCountedDownUpdate(s.tasks, i, t');
    if e.action == CountDown {
      UncountedTaskKeepsLatchPositive(s.tasks, i);
    }
  }

  /** Any interleaving of allowed steps from a scenario start keeps the invariant. */
  lemma {:induction false} ExecutePreservesAccounted(s: Scenario, events: seq<Event>, base: Counters)
    requires Accounted(s, base)
    requires Execute(s, events).Some?
    ensures Accounted(Execute(s, events).value, base)
    decreases |events|
  {
    if |events| > 0 {
      ApplyPreservesAccounted(s, events[0], base);
      ExecutePreservesAccounted(Apply(s, events[0]), events[1..], base);
    }
  }

  /**
   After any interleaving following `setup`: `active` never drops below zero,
   and `active + completed` equals the number of started tasks except for those
   caught between their two counter updates; a failed task never runs its
   decrement, so it stays counted in `active`.
   */
  lemma CountersAfterSetup(n: nat, events: seq<Event>)
    requires Execute(StartScenario(Setup(), n), events).Some?
    ensures var s := Execute(StartScenario(Setup(), n), events).value;
      && s.counters.active >= 0
      && 0 <= s.counters.completed <= n
      && s.counters.active + s.counters.completed + CountPhase(s.tasks, Releasing)
         == Started(s.tasks)
  {
    var s0 := StartScenario(Setup(), n);
    StartAccountedFrom(Setup(), n);
    ExecutePreservesAccounted(s0, events, Setup());
    PhasesPartition(Execute(s0, events).value.tasks);
  }

  /**
   Blocking scenario: `latch.await()` returns (the latch is 0) exactly when every
   task has finished and run its `finally`; at that point `completed` counts only
   the successes, and it reaches n, with `active` back at zero, exactly when no task failed.
   */
  lemma LatchReleasedAfterAllFinish(n: nat, events: seq<Event>)
    requires Execute(StartScenario(Setup(), n), events).Some?
    ensures var s := Execute(StartScenario(Setup(), n), events).value;
      && (s.latch == 0 <==> forall i :: 0 <= i < n ==> s.tasks[i].countedDown)
      && (s.latch == 0 ==> forall i :: 0 <= i < n ==> Finished(s.tasks[i].phase))
      && (s.latch == 0 ==> s.counters.completed == CountPhase(s.tasks, Succeeded) <= n)
      && (s.latch == 0 ==> (s.counters.completed == n <==> CountPhase(s.tasks, Failed) == 0))
      && (s.latch == 0 && CountPhase(s.tasks, Failed) == 0 ==> s.counters.active == 0)
  {
    var s0 := StartScenario(Setup(), n);
    StartAccountedFrom(Setup(), n);
    ExecutePreservesAccounted(s0, events, Setup());
    var s := Execute(s0, events).value;
    PhasesPartition(s.tasks);
    if s.latch == 0 {
      CountCountedDownAll(s.tasks);
      FinishedCounts(s.tasks);
    } else {
      if forall i :: 0 <= i < n ==> s.tasks[i].countedDown {
        AllCountedDown(s.tasks);
      }
    }
  }

  lemma {:induction false} AllCountedDown(tasks: seq<Task>)
    requires forall i :: 0 <= i < |tasks| ==> tasks[i].countedDown
    ensures CountCountedDown(tasks) == |tasks|
    decreases |tasks|
  {
    if |tasks| > 0 {
      assert forall i :: 0 <= i < |tasks| - 1 ==> tasks[i] == tasks[..|tasks| - 1][i];
      AllCountedDown(tasks[..|tasks| - 1]);
    }
  }

  /** When every task is finished, successes and failures make up all of them. */
  lemma {:induction false} FinishedCounts(tasks: seq<Task>)
    requires forall i :: 0 <= i < |tasks| ==> Finished(tasks[i].phase)
    ensures CountPhase(tasks, Succeeded) + CountPhase(tasks, Failed) == |tasks|
    ensures CountPhase(tasks, Running) == 0 && CountPhase(tasks, Releasing) == 0
    decreases |tasks|
  {
    if |tasks| > 0 {
      assert forall i :: 0 <= i < |tasks| - 1 ==> tasks[i] == tasks[..|tasks| - 1][i];
      FinishedCounts(tasks[..|tasks| - 1]);
    }
  }

  /**
   Reactive scenario: the collected list is complete exactly when every task
   succeeded; then `active` is back at its value before the scenario and
   `completed` has grown by exactly n.
   */
  lemma ReactiveAllSucceeded(base: Counters, n: nat, events: seq<Event>)
    requires Execute(StartScenario(base, n), events).Some?
    requires forall i :: 0 <= i < n ==> Execute(StartScenario(base, n), events).value.tasks[i].phase == Succeeded
    ensures var s := Execute(StartScenario(base, n), events).value;
      s.counters.active == base.active && s.counters.completed == base.completed + n
  {
    var s0 := StartScenario(base, n);
    StartAccountedFrom(base, n);
    ExecutePreservesAccounted(s0, events, base);
    var s := Execute(s0, events).value;
    AllHavePhase(s.tasks, Succeeded);
    PhasesPartition(s.tasks);
  }

  lemma {:induction false} AllHavePhase(tasks: seq<Task>, p: Phase)
    requires forall i :: 0 <= i < |tasks| ==> tasks[i].phase == p
    ensures CountPhase(tasks, p) == |tasks|
    decreases |tasks|
  {
    if |tasks| > 0 {
      assert forall i :: 0 <= i < |tasks| - 1 ==> tasks[i] == tasks[..|tasks| - 1][i];
      AllHavePhase(tasks[..|tasks| - 1], p);
    }
  }

  /**
   A scenario starts with n tasks of which none has started, a latch of n and
   the counters it inherits, and the accounting invariant holds relative to them.
   */
  lemma StartAccountedFrom(base: Counters, n: nat)
    ensures Accounted(StartScenario(base, n), base)
    ensures Started(StartScenario(base, n).tasks) == 0 && StartScenario(base, n).latch == n
  {
    CountsOfFresh(n);
    AllHavePhase(StartScenario(base, n).tasks, Pending);
    assert StartScenario(base, n).tasks == StartScenario(Counters(0, 0), n).tasks;
  }

  /**
   The counter a scenario records is its own successes only when it started
   from zero, as `setup` leaves it: inherited counts are carried into
   `completedTasks`.
   */
  lemma RecordedCountNeedsSetup(base: Counters, n: nat, events: seq<Event>)
    requires Execute(StartScenario(base, n), events).Some?
    ensures var s := Execute(StartScenario(base, n), events).value;
      && s.counters.completed == base.completed + CountPhase(s.tasks, Succeeded)
      && (s.counters.completed == CountPhase(s.tasks, Succeeded) <==> base.completed == 0)
    ensures base == Setup() ==>
      var s := Execute(StartScenario(base, n), events).value;
      s.counters.completed == CountPhase(s.tasks, Succeeded)
  {
    StartAccountedFrom(base, n);
    ExecutePreservesAccounted(StartScenario(base, n), events, base);
  }

  /** Running `a` then `b` is running `a + b`. */
  lemma {:induction false} ExecuteAppend(s: Scenario, a: seq<Event>, b: seq<Event>)
    ensures Execute(s, a + b) == if Execute(s, a).Some? then Execute(Execute(s, a).value, b) else None
    decreases |a|
  {
    if |a| == 0 {
      assert a + b == b;
    } else {
      assert (a + b)[0] == a[0];
      assert (a + b)[1..] == a[1..] + b;
      if Enabled(s, a[0]) {
        ExecuteAppend(Apply(s, a[0]), a[1..], b);
      }
    }
  }

  /** The remaining steps of a task that has not run its `finally`, completing it successfully. */
  function FinishTask(i: nat, p: Phase): seq<Event> {
    match p
    case Pending => [Event(i, Begin), Event(i, Release), Event(i, Complete), Event(i, CountDown)]
    case Running => [Event(i, Release), Event(i, Complete), Event(i, CountDown)]
    case Releasing => [Event(i, Complete), Event(i, CountDown)]
    case _ => [Event(i, CountDown)]
  }

  function PhaseRank(p: Phase): nat {
    match p
    case Pending => 3
    case Running => 2
    case Releasing => 1
    case _ => 0
  }

  /** A task's remaining steps are all allowed, touch only that task, and count the latch down once. */
  lemma {:induction false} FinishTaskRuns(s: Scenario, i: nat)
    requires i < |s.tasks| && !s.tasks[i].countedDown
    ensures var r := Execute(s, FinishTask(i, s.tasks[i].phase));
      && r.Some?
      && |r.value.tasks| == |s.tasks|
      && r.value.tasks[i].countedDown
      && (forall j :: 0 <= j < |s.tasks| && j != i ==> r.value.tasks[j] == s.tasks[j])
      && r.value.latch == LatchCountDown(s.latch)
    decreases PhaseRank(s.tasks[i].phase)
  {
    var p := s.tasks[i].phase;
    var steps := FinishTask(i, p);
    var e := steps[0];
    assert Enabled(s, e);
    var s1 := Apply(s, e);
    assert steps == [e] + steps[1..];
    ExecuteAppend(s, [e], steps[1..]);
    assert Execute(s, [e]) == Execute(s1, []);
    if !Finished(p) {
      assert steps[1..] == FinishTask(i, s1.tasks[i].phase);
      FinishTaskRuns(s1, i);
    }
  }

  /**
   From any state the invariant describes, the task code still lets every
   task that has not run its `finally` reach it, so some continuation brings
   the latch to zero and `latch.await()` can return.
   */
  lemma LatchCanBeReleasedFrom(s: Scenario, base: Counters)
    requires Accounted(s, base)
    ensures exists more :: Execute(s, more).Some? && Execute(s, more).value.latch == 0
    decreases s.latch
  {
    if s.latch == 0 {
      assert Execute(s, []) == Some(s);
    } else {
      if forall i :: 0 <= i < |s.tasks| ==> s.tasks[i].countedDown {
        AllCountedDown(s.tasks);
        assert false;
      }
      var i :| 0 <= i < |s.tasks| && !s.tasks[i].countedDown;
      var a := FinishTask(i, s.tasks[i].phase);
      FinishTaskRuns(s, i);
      ExecutePreservesAccounted(s, a, base);
      var s1 := Execute(s, a).value;
      LatchCanBeReleasedFrom(s1, base);
      var b :| Execute(s1, b).Some? && Execute(s1, b).value.latch == 0;
      ExecuteAppend(s, a, b);
      assert Execute(s, a + b) == Execute(s1, b);
    }
  }

  /**
   Blocking scenario: whatever interleaving has happened since the scenario
   started, including failed tasks, the remaining steps the task code allows
   can still release the latch.
   */
  lemma LatchCanAlwaysBeReleased(n: nat, events: seq<Event>)
    requires Execute(StartScenario(Setup(), n), events).Some?
    ensures var s := Execute(StartScenario(Setup(), n), events).value;
      exists more :: Execute(s, more).Some? && Execute(s, more).value.latch == 0
  {
    StartAccountedFrom(Setup(), n);
    ExecutePreservesAccounted(StartScenario(Setup(), n), events, Setup());
    LatchCanBeReleasedFrom(Execute(StartScenario(Setup(), n), events).value, Setup());
  }

  /** The path a successful task takes through its code: start, release, completion, then its `finally`. */
  const SuccessPath: seq<Action> := [Begin, Release, Complete, CountDown]

  /** The path of a task whose body throws after its start: no counter update after the exception, then its `finally`. */
  const FailurePath: seq<Action> := [Begin, Throw, CountDown]

  /** The actions of one task, in the order they occur in an interleaving. */
  function TaskTrace(events: seq<Event>, i: nat): seq<Action>
    decreases |events|
  {
    if |events| == 0 then []
    else (if events[0].task == i then [events[0].action] else []) + TaskTrace(events[1..], i)
  }

  /** The steps a task has taken to reach its current phase and latch status. */
  function History(t: Task): seq<Action> {
    (match t.phase
     case Pending => []
     case Running => [Begin]
     case Releasing => [Begin, Release]
     case Succeeded => [Begin, Release, Complete]
     case Failed => [Begin, Throw])
    + (if t.countedDown then [CountDown] else [])
  }

  predicate CountDownAfterFinish(tasks: seq<Task>) {
    forall j :: 0 <= j < |tasks| && tasks[j].countedDown ==> Finished(tasks[j].phase)
  }

  /** One step keeps every `finally` after the end of its task's body. */
  lemma ApplyKeepsCountDownAfterFinish(s: Scenario, e: Event)
    requires Enabled(s, e) && CountDownAfterFinish(s.tasks)
    ensures CountDownAfterFinish(Apply(s, e).tasks)
  {
  }

  lemma {:induction false} ExecuteKeepsCountDownAfterFinish(s: Scenario, events: seq<Event>)
    requires CountDownAfterFinish(s.tasks)
    requires Execute(s, events).Some?
    ensures CountDownAfterFinish(Execute(s, events).value.tasks)
    decreases |events|
  {
    if |events| > 0 {
      ApplyKeepsCountDownAfterFinish(s, events[0]);
      ExecuteKeepsCountDownAfterFinish(Apply(s, events[0]), events[1..]);
    }
  }

  /** One step appends its action to its own task's history and leaves the others alone. */
  lemma ApplyExtendsHistory(s: Scenario, e: Event, i: nat)
    requires Enabled(s, e) && CountDownAfterFinish(s.tasks)
    requires i < |s.tasks|
    ensures History(Apply(s, e).tasks[i]) == History(s.tasks[i]) + (if e.task == i then [e.action] else [])
  {
  }

  lemma {:induction false} ExecuteExtendsHistory(s: Scenario, events: seq<Event>, i: nat)
    requires CountDownAfterFinish(s.tasks)
    requires Execute(s, events).Some?
    requires i < |s.tasks|
    ensures History(Execute(s, events).value.tasks[i]) == History(s.tasks[i]) + TaskTrace(events, i)
    decreases |events|
  {
    if |events| > 0 {
      var e := events[0];
      var s1 := Apply(s, e);
      var step: seq<Action> := if e.task == i then [e.action] else [];
      ApplyExtendsHistory(s, e, i);
      ApplyKeepsCountDownAfterFinish(s, e);
      ExecuteExtendsHistory(s1, events[1..], i);
      assert TaskTrace(events, i) == step + TaskTrace(events[1..], i);
      assert History(s.tasks[i]) + step + TaskTrace(events[1..], i)
          == History(s.tasks[i]) + (step + TaskTrace(events[1..], i));
    }
  }

  /**
   Whatever the interleaving, each task's own steps follow its code: they are
   a prefix of start, release, completion, `finally`, or of start, exception,
   `finally`. No task skips its release, updates a counter after throwing,
   or runs its `finally` before its body has ended or twice.
   */
  lemma EveryTaskFollowsItsCode(c: Counters, n: nat, events: seq<Event>)
    requires Execute(StartScenario(c, n), events).Some?
    ensures forall i :: 0 <= i < n ==>
      TaskTrace(events, i) <= SuccessPath || TaskTrace(events, i) <= FailurePath
  {
    var s0 := StartScenario(c, n);
    ExecuteKeepsCountDownAfterFinish(s0, events);
    var s := Execute(s0, events).value;
    forall i | 0 <= i < n
      ensures TaskTrace(events, i) <= SuccessPath || TaskTrace(events, i) <= FailurePath
    {
      ExecuteExtendsHistory(s0, events, i);
      assert History(s0.tasks[i]) == [];
      assert TaskTrace(events, i) == History(s.tasks[i]);
      HistoryFollowsCode(s.tasks[i]);
    }
  }

  lemma HistoryFollowsCode(t: Task)
    requires t.countedDown ==> Finished(t.phase)
    ensures History(t) <= SuccessPath || History(t) <= FailurePath
  {
  }
}

=== FILE: task_ids.dfy ===
/**
 Task identifiers of the mixed-work benchmark: a scenario prefix followed by
 the task index formatted with `%02d` (zero-padded to at least two digits).
 */
module TaskIds {
  import opened BenchmarkConfig

  const BlockingPrefix: string := "Block-"
  const ReactivePrefix: string := "React-"

  predicate IsDigit(c: char) {
    '0' <= c <= '9'
  }

  function DigitChar(d: nat): (c: char)
    requires d < 10
    ensures IsDigit(c)
  {
    ['0', '1', '2', '3', '4', '5', '6', '7', '8', '9'][d]
  }

  function DigitValue(c: char): (d: nat)
    requires IsDigit(c)
    ensures d < 10
  {
    (c as int - '0' as int) as nat
  }

  lemma DigitRoundTrip(d: nat)
    requires d < 10
    ensures DigitValue(DigitChar(d)) == d
  {
  }

  predicate AllDigits(s: string) {
    forall k :: 0 <= k < |s| ==> IsDigit(s[k])
  }

  /** Decimal rendering of a non-negative integer, most significant digit first, no leading zeros. */
  function Decimal(n: nat): (s: string)
    ensures AllDigits(s) && |s| >= 1
    decreases n
  {
    if n < 10 then [DigitChar(n)] else Decimal(n / 10) + [DigitChar(n % 10)]
  }

  /** Reads a string of decimal digits back as a number (leading zeros allowed). */
  function ParseDecimal(s: string): nat
    requires AllDigits(s)
    decreases |s|
  {
    if |s| == 0 then 0 else 10 * ParseDecimal(s[..|s| - 1]) + DigitValue(s[|s| - 1])
  }

  lemma {:induction false} DecimalRoundTrip(n: nat)
    ensures ParseDecimal(Decimal(n)) == n
    decreases n
  {
    var s := Decimal(n);
    if n < 10 {
      DigitRoundTrip(n);
    } else {
      DecimalRoundTrip(n / 10);
      DigitRoundTrip(n % 10);
      assert s[..|s| - 1] == Decimal(n / 10);
    }
  }

  /** `Decimal(n)` has one digit below 10, two from 10 to 99, and more beyond. */
  lemma {:induction false} DecimalLength(n: nat)
    ensures |Decimal(n)| == 1 <==> n < 10
    ensures |Decimal(n)| == 2 <==> 10 <= n < 100
  {
    if n >= 10 {
      DecimalLength(n / 10);
    }
  }

  /** `String.format("%02d", i)` for a non-negative index. */
  function Pad2(i: nat): (s: string)
    ensures AllDigits(s)
    ensures |s| >= 2
  {
    if i < 10 then ['0'] + Decimal(i) else Decimal(i)
  }

  lemma Pad2RoundTrip(i: nat)
    ensures ParseDecimal(Pad2(i)) == i
  {
    DecimalRoundTrip(i);
    if i < 10 {
      var s := Pad2(i);
      assert s[..|s| - 1] == ['0'];
      DigitRoundTrip(i);
    }
  }

  /** Padding keeps every index below 100 at exactly two characters. */
  lemma Pad2Length(i: nat)
    ensures |Pad2(i)| == 2 <==> i < 100
  {
    DecimalLength(i);
  }

  /** The identifier the scenario loop assigns to task `i`: the prefix, then at least two digits. */
  function TaskId(prefix: string, i: nat): (id: string)
    ensures |id| >= |prefix| + 2
    ensures id[..|prefix|] == prefix && AllDigits(id[|prefix|..])
  {
    var id := prefix + Pad2(i);
    assert id[|prefix|..] == Pad2(i);
    id
  }

  /** Recovers the index from an identifier carrying the given prefix. */
  function ParseTaskId(prefix: string, id: string): (r: int)
    ensures r >= -1
  {
    if |prefix| <= |id| && id[..|prefix|] == prefix && AllDigits(id[|prefix|..]) && |id| - |prefix| >= 2
    then ParseDecimal(id[|prefix|..])
    else -1
  }

  lemma TaskIdRoundTrip(prefix: string, i: nat)
    ensures ParseTaskId(prefix, TaskId(prefix, i)) == i
  {
    var id := TaskId(prefix, i);
    assert id[..|prefix|] == prefix;
    assert id[|prefix|..] == Pad2(i);
    Pad2RoundTrip(i);
  }

  /** Distinct indices yield distinct identifiers under one prefix. */
  lemma TaskIdInjective(prefix: string, i: nat, j: nat)
    ensures TaskId(prefix, i) == TaskId(prefix, j) <==> i == j
  {
    if TaskId(prefix, i) == TaskId(prefix, j) {
      TaskIdRoundTrip(prefix, i);
      TaskIdRoundTrip(prefix, j);
    }
  }

  /** No blocking identifier is ever a reactive one. */
  lemma PrefixesDisjoint(i: nat, j: nat)
    ensures TaskId(BlockingPrefix, i) != TaskId(ReactivePrefix, j)
  {
    assert TaskId(BlockingPrefix, i)[0] == 'B';
    assert TaskId(ReactivePrefix, j)[0] == 'R';
  }

  /**
   The identifiers the scenario generates, in submission order, for indices
   0 .. n-1: each parses back to its own index, so no two coincide.
   */
  function TaskIds(prefix: string, n: nat): (ids: seq<string>)
    ensures |ids| == n
    ensures forall i :: 0 <= i < n ==> ids[i] == TaskId(prefix, i)
    ensures forall i :: 0 <= i < n ==> ParseTaskId(prefix, ids[i]) == i
    ensures forall i, j :: 0 <= i < j < n ==> ids[i] != ids[j]
  {
    var ids := seq(n, i requires 0 <= i => TaskId(prefix, i));
    AllTaskIdsParse(prefix, ids);
    ids
  }

  lemma AllTaskIdsParse(prefix: string, ids: seq<string>)
    requires forall i :: 0 <= i < |ids| ==> ids[i] == TaskId(prefix, i)
    ensures forall i :: 0 <= i < |ids| ==> ParseTaskId(prefix, ids[i]) == i
  {
    forall i | 0 <= i < |ids|
      ensures ParseTaskId(prefix, ids[i]) == i
    {
      TaskIdRoundTrip(prefix, i);
    }
  }

  /** The generated identifiers are pairwise distinct and, for the benchmark's 12 tasks, each ends in exactly two digits. */
  lemma GeneratedIdsWellFormed(prefix: string)
    ensures forall i, j :: 0 <= i < j < NumTasks ==> TaskIds(prefix, NumTasks)[i] != TaskIds(prefix, NumTasks)[j]
    ensures forall i :: 0 <= i < NumTasks ==> |TaskIds(prefix, NumTasks)[i]| == |prefix| + 2
  {
    var ids := TaskIds(prefix, NumTasks);
    forall i, j | 0 <= i < j < NumTasks
      ensures ids[i] != ids[j]
    {
      TaskIdInjective(prefix, i, j);
    }
    forall i | 0 <= i < NumTasks
      ensures |ids[i]| == |prefix| + 2
    {
      Pad2Length(i);
    }
  }
}
